=== FILE: README.md ===
# Hot potato: the token-handoff protocol in Dafny

The hot-potato charm passes one token, the "potato", among the units of an
application. Two kinds of bucket hold the shared state:

- the **application bucket**, written only by the leader unit. It holds
  `initialized`, `delay`, `max_passes`, `owner`, `run` and `total_passes`;
- one **unit bucket** per unit, written only by that unit. It holds `next_owner`,
  `next_total_passes` and `npasses`.

The unit named in `owner` proposes a pass in its own bucket. The proposal is one
more than `total_passes`, plus a next owner drawn at random from the sorted unit
names. The leader folds a proposal into the application bucket only if it is
strictly ahead of `total_passes`. The run stops once `total_passes` reaches
`max_passes`. The leader gets no notification of changes to its own bucket, so
when it is the owner it merges its own proposal in the same hook.

The charm implements the handlers twice. The typed variant works on records. The
string-keyed variant stores counters as decimal text and flags as `"x"`/`""`.
This model covers both variants and proves that they agree.

Modules:

- `Schema`: the bucket records, their defaults and unit names.
- `Hooks`: the local unit's context, relation-changed events and action parameters.
- `Decimal`: `str` and `int` on non-negative counters.
- `OwnerSelection`: the sorted candidate list and the pick.
- `TypedCharm`: the typed handlers.
- `StringCharm`: the string-keyed handlers. A handler that raises returns `None`,
  and the platform then discards that hook's relation writes.
- `Agreement`: reads string buckets back as records and shows that each string
  handler matches its typed counterpart.
- `Traces`: sequences of hooks delivered to one unit.

Where the two variants differ, the model follows each variant's own code:

- The string configure action never writes `run`. The typed one does.
- Before initialisation, the string variant reads a missing `max_passes` as 0.
  The typed schema defaults it to 10.
- The string variant raises when it writes a missing `next_owner` or reads a
  missing `delay` after a merge.

The four counters are `NonNegativeInteger`s. In the records they are `nat`, so
every transition keeps them non-negative by construction. The string variant's
reader accepts only digit strings, so it can only produce non-negative values.

Every handler re-reads `relation.units` when it draws the next owner. The draw
itself, `random.randint(0, len(names) - 1)`, is the parameter `pick`, with
`pick <= |peers|`.

## Model

| member | source | states |
|---|---|---|
| Schema.NoUnitOwnsByDefault | src/interfaces/hotpotato.py:25-30 | neither the default owner `""` nor the initialised owner `"-"` is a unit name, so no unit owns the potato until an action names one |
| Decimal.Show | src/charmnoiface.py:92-94 | `str` of a counter is a non-empty string of ASCII digits |
| Decimal.Parse | src/charmnoiface.py:69-71 | `int` succeeds exactly on non-empty digit strings and is `None` (raises) on anything else |
| Decimal.ParseShow | src/charmnoiface.py:69-77 | a counter written with `str` reads back with `int` as the same non-negative number |
| OwnerSelection.Below | src/charmbase.py:81 | the string order `sorted` uses puts a prefix first and orders by the first code point |
| OwnerSelection.Sort | src/charmbase.py:81 | `sorted` returns an ordered permutation of its input |
| OwnerSelection.Candidates | src/charmbase.py:79-81 | the candidate list is sorted, is the local name plus the peers' names, has one entry more than the peers, and contains the caller |
| OwnerSelection.Pick | src/charmbase.py:83-87 | for a non-empty list the pick is the element at the drawn index, hence a member; `""` is returned only for an empty list |
| OwnerSelection.NextOwner | src/charmbase.py:77-88 | the proposed owner is the local unit or one of its peers |
| OwnerSelection.CandidatesNeverEmpty | src/charmbase.py:81-87 | the empty-list branch is unreachable because the caller is always a candidate |
| OwnerSelection.SortedUnique | src/charmbase.py:81 | two sorted lists with the same elements are equal |
| OwnerSelection.NextOwnerOrderIndependent | src/charmbase.py:81 | the owner chosen for a given index does not depend on the order in which the peers are enumerated |
| OwnerSelection.EveryCandidateReachable | src/charmbase.py:83-85 | every candidate is chosen by some index in range |
| TypedCharm.LeaderElected | src/charmiface.py:44-57 | with a relation and an uninitialised bucket, the bucket becomes initialised with delay 1.0, max 10, owner "-", run false and count 0; otherwise it is unchanged |
| TypedCharm.Merge | src/charmiface.py:69-78 | a stale proposal leaves the bucket unchanged; a fresh one sets count and owner, stops the run at the maximum, and keeps initialized, delay and max; the count never decreases and run is never set |
| TypedCharm.Propose | src/charmiface.py:80-86 | only the owner writes: next count = count + 1, npasses + 1, and the chosen next owner; anyone else leaves its bucket unchanged |
| TypedCharm.RelationChanged | src/charmiface.py:88-112 | with run off nothing is written; a non-leader never writes the app bucket and ignores unit events; a leader merges a unit event and leaves its own bucket alone; on an app event every unit writes its proposal (a no-op unless it is the owner) and the leader then merges its own bucket; the count never decreases and run is never set |
| TypedCharm.Configure | src/charmiface.py:121-136 | only the leader writes; each given parameter replaces its field, the others stay; count and initialized never change |
| TypedCharm.RunAction | src/charmiface.py:141-146 | only the leader writes, and then only the run flag |
| TypedCharm.LeaderElectedIdempotent | src/charmiface.py:50-57 | a second leader election changes nothing |
| TypedCharm.MergeIdempotent | src/charmiface.py:72-74 | merging the same proposal twice equals merging it once |
| TypedCharm.MergeAcceptsExactlyFresh | src/charmiface.py:72 | the merge leaves the bucket unchanged if and only if the proposal is not ahead of the count |
| TypedCharm.MergeHalts | src/charmiface.py:76-78 | an accepted proposal reaching the maximum stops the run |
| TypedCharm.ReplayedUnitEventIsNoOp | src/charmiface.py:95-99 | redelivering a unit notification has no further effect |
| TypedCharm.LeaderSelfReconcile | src/charmiface.py:106-112 | with run set, a leader that owns the potato advances the count by exactly one on an app event, hands ownership to the selected candidate, and stops at the maximum |
| TypedCharm.NonLeaderOwnerProposes | src/charmiface.py:100-107 | with run set, a non-leader owner proposes on an app event: next count = count + 1, the selected candidate as next owner, npasses + 1, and the app bucket unchanged |
| TypedCharm.ReplayedAppEventProposesTwice | src/charmiface.py:83-86 | an app event replayed to a running non-leader owner is not idempotent: npasses moves by two and the next owner is drawn again, while the proposed count is the same both times |
| TypedCharm.OnlyOwnerProposes | src/charmiface.py:100-107 | a non-leader that is not the owner writes nothing on an app event |
| StringCharm.FlagText | src/charmnoiface.py:153 | a flag is stored as non-empty text exactly when it is true |
| StringCharm.Count | src/charmnoiface.py:69-71 | a missing counter reads as 0; a present one raises unless it is a non-empty digit string; a counter written with `str` reads back as itself |
| StringCharm.Flag | src/charmnoiface.py:102 | a missing flag reads false, `"x"` reads true and `""` reads false |
| StringCharm.Holds | src/charmnoiface.py:89 | a missing `owner` matches no name; a match means the stored owner is that name |
| StringCharm.LeaderElected | src/charmnoiface.py:39-56 | initialises only when `initialized` is absent or empty, writing exactly the six initial keys and keeping every other key |
| StringCharm.Merge | src/charmnoiface.py:66-84 | raises exactly when a counter is unreadable or an accepted proposal has no `next_owner`; a stale proposal changes nothing; a fresh one writes the count as text and the owner, writes an empty `run` at the maximum and keeps `run` below it, keeping all other keys |
| StringCharm.Propose | src/charmnoiface.py:86-96 | a non-owner, including one whose bucket has no `owner`, writes nothing; the owner writes count + 1, npasses + 1 (missing reads as 0) and the chosen next owner, and keeps every other key |
| StringCharm.RelationChanged | src/charmnoiface.py:98-123 | with run off nothing is written; a non-leader ignores unit events and never writes the app bucket; a leader's unit-event merge raises exactly when the merge does or `delay` is missing; on an app event the unit proposes, and the leader then merges its own proposal, raising exactly when either step does |
| StringCharm.Configure | src/charmnoiface.py:133-143 | only the leader writes; delay, owner and max (as decimal text) are set when given and kept when not, no other key changes, and run is never written |
| StringCharm.RunAction | src/charmnoiface.py:148-153 | only the leader writes, and then the stored flag reads back as the value given, with every other key unchanged |
| Agreement.DecodeEncodeApp | src/charmnoiface.py:45-56 | app settings written as decimal text and `"x"`/`""` flags read back unchanged |
| Agreement.DecodeEncodeUnit | src/charmnoiface.py:90-96 | a unit bucket written as text reads back unchanged |
| Agreement.LeaderElectedAgrees | src/charmnoiface.py:45-56 | string initialisation reads back as the typed initialisation, and writes delay text `"1.0"` where the typed one writes 1.0; without initialisation both leave their bucket, delay included, unchanged |
| Agreement.InitialDataAgrees | src/charmnoiface.py:47-56 | the five written protocol keys decode to the typed initial state, and the written delay text is `"1.0"` where the typed delay is 1.0 |
| Agreement.MergeAgrees | src/charmnoiface.py:66-84 | on agreeing buckets the string merge never raises and reads back as the typed merge, including `run` cleared at the maximum |
| Agreement.MergeOfSilentUnitIsNoOp | src/charmnoiface.py:69-73 | when the app bucket's counters are readable, a unit with no `next_total_passes` reads as 0, so merging it is a no-op |
| Agreement.ProposeAgrees | src/charmnoiface.py:86-96 | for any unit name the string proposal never raises on agreeing buckets and reads back as the typed one |
| Agreement.RelationChangedAgrees | src/charmnoiface.py:98-123 | for a unit name, on agreeing buckets and events whose string app bucket holds `delay`, the string handler never raises and reads back as the typed handler |
| Agreement.RunActionAgrees | src/charmnoiface.py:148-153 | the string run action reads back as the typed one |
| Agreement.ConfigureAgreesExceptRun | src/charmnoiface.py:133-143 | the string configure action reads back as the typed one given the same parameters without `run` |
| Agreement.ConfigureRunDiverges | src/charmnoiface.py:138-143 | a `run` parameter changes the typed bucket but not the string one |
| Agreement.EmptyBucketDefaultsDiverge | src/charmnoiface.py:69 | an empty string bucket reads max 0, whereas the typed schema default is 10 |
| Agreement.EmptyUnitBucketIsDefault | src/interfaces/hotpotato.py:34-36 | an empty string unit bucket reads as the schema default: next owner `""`, next count 0, npasses 0 |
| Traces.Step | src/charmiface.py:35-42 | one hook, routed to its handler: an initialised bucket stays initialised with a count that never drops; a non-leader writes no app bucket outside leader election; relation and leadership hooks never set run and freeze a stopped initialised run; npasses never drops |
| Traces.TotalPassesMonotone | src/charmiface.py:72-73 | once initialised, the bucket stays initialised and the pass count never decreases over any hook sequence |
| Traces.HaltedIsFrozen | src/charmiface.py:91-92 | once initialised, with run off, relation and leadership hooks change neither bucket until an action intervenes |
| Traces.HaltingInvariant | src/charmiface.py:76-78 | without actions, a running bucket is always below its maximum |
| Traces.NeverRestarts | src/charmiface.py:66-112 | without actions, no hook turns the run flag on |
| Traces.NonLeaderNeverWritesApp | src/charmiface.py:88-112 | a non-leader leaves the app bucket untouched over any hook sequence |
| Traces.PassesServedMonotone | src/charmiface.py:86 | a unit's own pass counter never decreases |
| Traces.PassingScenario | src/charmiface.py:69-112 | with leader `hp/0`, peer `hp/1` and three passes, the potato moves to `hp/1` and the run stops at 3; a stale proposal in between changes nothing |

## Left out

- `src/charm.py` only picks a variant and calls the framework's `main`; it is not modelled.
- Status rendering (`service_update_status`, `service_set_updated`), logging and the `log_enter_exit` decorators produce no protocol state.
- The relation-joined, relation-departed and config-changed handlers only log and refresh the status.
- The debugger base-class interposition in `src/charmbase.py` has no protocol effect.
- `time.sleep(delay)` after a merge blocks but writes nothing. `delay` is a `real >= 0` that is only stored.
- In the string variant, `float` of a present `delay` is taken to succeed. The charm writes only `str` of a number there.
- StringCharm.Configure: takes `max-passes` as a non-negative integer and `delay` as a non-negative number. The configure action writes both without checking them, and the action's parameter schema is not part of this model. With a negative `max-passes`, Python's `int` reads it back as a negative number and the merge proceeds, whereas the model's reader raises. A negative `delay` makes `time.sleep` raise after a merge, which is not modelled.
- `random.randint` is the index parameter `pick`.
- The value checkers, registry and bucket replication belong to an external interface library and are not modelled. The schema is taken as given: non-negative fields are `nat`/`real >= 0`, so a write rejected by a checker cannot be expressed.
- Idempotence under replay holds for unit-bucket notifications only. The unit side has no guard: an application-changed notification delivered twice to the owner makes it propose twice, counting two passes served and drawing the next owner again. Both proposals carry the same count, so the leader accepts at most one.
- Replication, notification delivery, membership changes and concurrency are not modelled. A delivered notification is an input to one handler, and traces are sequences of hooks on one unit.
- A missing `hot-potato` relation in the relation-changed hook and the actions is not modelled. The hook always runs with the relation present.
- Decimal.Parse: accepts plain ASCII digit strings only. Python's `int` also takes a sign, surrounding whitespace, underscores and non-ASCII digits. The handlers write only `str` of non-negative integers, provided the configure parameters are non-negative (next line).
- Writing `""` deletes the key on the platform; the model stores `""`. The two are not alike for every read: `int` reads a missing counter as 0 but raises on `""`, and a missing `next_owner` raises in the merge where `""` would be copied into `owner`. Storing `""` is still faithful here because the handlers write `""` only to `run` (read with `bool`, where missing and `""` are both false) and, through the configure action, to `owner` (only compared with non-empty unit names, which match neither).
- Agreement: `AppAgrees` compares every application field except `delay`. The model never parses the delay text, so the two delays are related only where a handler writes them (initialisation) or copies them unchanged.
- Traces.Step: the leader-elected hook has no leadership check, as in the source. The platform delivers it only to the leader.
- Traces.TotalPassesMonotone: requires an initialised bucket. Leader election on an uninitialised bucket resets `total_passes` to 0, even if a run action had already started the run.
- A departed owner leaves a dangling `owner`, and nothing in the source recovers from it. The model has no membership view beyond the peer list given to each hook.

=== FILE: agreement.dfy ===
/** The two charm variants agree. The string buckets are read back into typed records
    exactly as the string handlers read them, and each string handler, so read, does what
    the typed handler does. The delay is compared separately where a handler writes it:
    the model never parses its text, which the relation-changed handler only reads with
    `float` to pace itself. */
module Agreement {
  import opened Optional
  import opened Schema
  import opened Hooks
  import Decimal
  import TypedCharm
  import StringCharm
  import OwnerSelection

  /** The application bucket without its delay. */
  datatype Settings = Settings(initialized: bool, maxPasses: nat, owner: string, run: bool, totalPasses: nat)

  function SettingsOf(a: AppBucket): Settings {
    Settings(a.initialized, a.maxPasses, a.owner, a.run, a.totalPasses)
  }

  /** The application bucket as the string handlers read it; `None` when a counter is unreadable. */
  function DecodeApp(d: StringCharm.Data): Option<Settings>
  {
    var maxPasses := StringCharm.Count(d, "max_passes");
    var total := StringCharm.Count(d, "total_passes");
    if maxPasses.None? || total.None? then None
    else Some(Settings(
      StringCharm.Flag(d, "initialized"),
      maxPasses.value,
      if "owner" in d then d["owner"] else "",
      StringCharm.Flag(d, "run"),
      total.value))
  }

  /** A unit bucket as the string handlers read it; `None` when a counter is unreadable. */
  function DecodeUnit(d: StringCharm.Data): Option<UnitBucket>
  {
    var next := StringCharm.Count(d, "next_total_passes");
    var served := StringCharm.Count(d, "npasses");
    if next.None? || served.None? then None
    else Some(UnitBucket(if "next_owner" in d then d["next_owner"] else "", next.value, served.value))
  }

  /** The string form of typed settings, with the delay as given text. */
  function EncodeApp(s: Settings, delayText: string): StringCharm.Data {
    map["initialized" := StringCharm.FlagText(s.initialized), "delay" := delayText,
        "max_passes" := Decimal.Show(s.maxPasses), "owner" := s.owner,
        "run" := StringCharm.FlagText(s.run), "total_passes" := Decimal.Show(s.totalPasses)]
  }

  function EncodeUnit(u: UnitBucket): StringCharm.Data {
    map["next_owner" := u.nextOwner, "next_total_passes" := Decimal.Show(u.nextTotalPasses),
        "npasses" := Decimal.Show(u.npasses)]
  }

  /** Counters written as decimal text and flags written as `"x"`/`""` read back unchanged. */
  lemma DecodeEncodeApp(s: Settings, delayText: string)
    ensures DecodeApp(EncodeApp(s, delayText)) == Some(s)
  {
    Decimal.ParseShow(s.maxPasses);
    Decimal.ParseShow(s.totalPasses);
  }

  lemma DecodeEncodeUnit(u: UnitBucket)
    ensures DecodeUnit(EncodeUnit(u)) == Some(u)
  {
    Decimal.ParseShow(u.nextTotalPasses);
    Decimal.ParseShow(u.npasses);
  }

  /** A string application bucket stands for a typed one. */
  predicate AppAgrees(d: StringCharm.Data, a: AppBucket) {
    DecodeApp(d) == Some(SettingsOf(a))
  }

  /** A string unit bucket stands for a typed one, and names a next owner whenever it
      proposes anything (a bucket with no proposal reads as `next_total_passes` zero). */
  predicate UnitAgrees(d: StringCharm.Data, u: UnitBucket) {
    DecodeUnit(d) == Some(u) && ("next_owner" in d || u.nextTotalPasses == 0)
  }

  /** The string initialisation reads back as the typed one, whatever it overwrites. */
  lemma LeaderElectedAgrees(d: StringCharm.Data, a: AppBucket, hasRelation: bool)
    requires AppAgrees(d, a)
    ensures AppAgrees(StringCharm.LeaderElected(d, hasRelation), TypedCharm.LeaderElected(a, hasRelation))
    ensures hasRelation && !a.initialized ==>
      && StringCharm.LeaderElected(d, hasRelation)["delay"] == "1.0"
      && TypedCharm.LeaderElected(a, hasRelation).delay == 1.0
    ensures !(hasRelation && !a.initialized) ==>
      && StringCharm.LeaderElected(d, hasRelation) == d
      && TypedCharm.LeaderElected(a, hasRelation).delay == a.delay
  {
    if hasRelation && !a.initialized {
      Decimal.ParseShow(10);
      Decimal.ParseShow(0);
    }
  }

  /** The bucket written on initialisation decodes to the typed initial state. */
  lemma InitialDataAgrees()
    ensures DecodeApp(StringCharm.InitialData()) == Some(SettingsOf(TypedCharm.LeaderElected(AppDefault, true)))
    ensures StringCharm.InitialData()["delay"] == "1.0" && TypedCharm.LeaderElected(AppDefault, true).delay == 1.0
  {
    Decimal.ParseShow(10);
    Decimal.ParseShow(0);
  }

  /** The string merge never raises on agreeing buckets and reads back as the typed
      merge, including clearing `run` at the maximum; the delay text is kept. */
  lemma MergeAgrees(d: StringCharm.Data, u: StringCharm.Data, a: AppBucket, b: UnitBucket)
    requires AppAgrees(d, a) && UnitAgrees(u, b)
    ensures StringCharm.Merge(d, u).Some?
    ensures AppAgrees(StringCharm.Merge(d, u).value, TypedCharm.Merge(a, b))
    ensures "delay" in d ==> "delay" in StringCharm.Merge(d, u).value
  {
    if b.nextTotalPasses > a.totalPasses {
      Decimal.ParseShow(b.nextTotalPasses);
    }
  }

  /** A unit with no `next_total_passes` reads as proposing zero, so merging it is a no-op. */
  lemma MergeOfSilentUnitIsNoOp(d: StringCharm.Data, u: StringCharm.Data)
    requires DecodeApp(d).Some?
    requires "next_total_passes" !in u
    ensures StringCharm.Merge(d, u) == Some(d)
  {
  }

  /** The string proposal reads back as the typed one for any unit name. */
  lemma ProposeAgrees(name: string, u: StringCharm.Data, d: StringCharm.Data,
                      b: UnitBucket, a: AppBucket, nextOwner: string)
    requires IsUnitName(name)
    requires AppAgrees(d, a) && UnitAgrees(u, b)
    ensures StringCharm.Propose(name, u, d, nextOwner).Some?
    ensures UnitAgrees(StringCharm.Propose(name, u, d, nextOwner).value, TypedCharm.Propose(name, b, a, nextOwner))
  {
    NoUnitOwnsByDefault(name);
    if a.owner == name {
      Decimal.ParseShow(a.totalPasses + 1);
      Decimal.ParseShow(b.npasses + 1);
    }
  }

  /** Events of the two variants that report the same change. */
  predicate EventsAgree(e: Changed<StringCharm.Data>, t: Changed<UnitBucket>) {
    match e
    case AppChanged => t.AppChanged?
    case UnitChanged(n, d) => t.UnitChanged? && t.unit == n && UnitAgrees(d, t.bucket)
  }

  /** The whole relation-changed handler: on agreeing buckets and events the string
      handler never raises, and its buckets read back as the typed handler's. */
  lemma RelationChangedAgrees(ctx: Context, s: StringCharm.Local, t: TypedCharm.Local,
                              e: Changed<StringCharm.Data>, ev: Changed<UnitBucket>, pick: nat)
    requires ValidPick(ctx, pick) && IsUnitName(ctx.name)
    requires AppAgrees(s.app, t.app) && "delay" in s.app && UnitAgrees(s.mine, t.mine)
    requires EventsAgree(e, ev)
    ensures StringCharm.RelationChanged(ctx, s, e, pick).Some?
    ensures var r := StringCharm.RelationChanged(ctx, s, e, pick).value;
      var q := TypedCharm.RelationChanged(ctx, t, ev, pick);
      AppAgrees(r.app, q.app) && UnitAgrees(r.mine, q.mine) && "delay" in r.app
  {
    if StringCharm.Flag(s.app, "run") {
      if ctx.isLeader && e.UnitChanged? {
        MergeAgrees(s.app, e.bucket, t.app, ev.bucket);
      } else if e.AppChanged? {
        var next := OwnerSelection.NextOwner(ctx.name, ctx.peers, pick);
        ProposeAgrees(ctx.name, s.mine, s.app, t.mine, t.app, next);
        var mine := StringCharm.Propose(ctx.name, s.mine, s.app, next).value;
        var typedMine := TypedCharm.Propose(ctx.name, t.mine, t.app, next);
        if ctx.isLeader {
          MergeAgrees(s.app, mine, t.app, typedMine);
        }
      }
    }
  }

  /** The run action stores `"x"` or `""`, which reads back as the flag given. */
  lemma RunActionAgrees(isLeader: bool, d: StringCharm.Data, a: AppBucket, run: bool)
    requires AppAgrees(d, a)
    ensures AppAgrees(StringCharm.RunAction(isLeader, d, run), TypedCharm.RunAction(isLeader, a, run))
  {
  }

  /** The configure actions agree on delay, owner and maximum; only the typed one sets
      the run flag. */
  lemma ConfigureAgreesExceptRun(isLeader: bool, d: StringCharm.Data, a: AppBucket,
                                 p: ConfigureParams<Delay>, showDelay: Delay -> string)
    requires AppAgrees(d, a)
    ensures AppAgrees(StringCharm.Configure(isLeader, d, p, showDelay), TypedCharm.Configure(isLeader, a, p.(run := None)))
  {
    if isLeader && p.maxPasses.Some? {
      Decimal.ParseShow(p.maxPasses.value);
    }
  }

  /** The one divergence in the configure actions: a `run` parameter is honoured only
      by the typed handler. */
  lemma ConfigureRunDiverges(d: StringCharm.Data, a: AppBucket, p: ConfigureParams<Delay>, showDelay: Delay -> string)
    requires AppAgrees(d, a)
    requires p.run.Some? && p.run.value != a.run
    ensures DecodeApp(StringCharm.Configure(true, d, p, showDelay)).value.run == a.run
    ensures TypedCharm.Configure(true, a, p).run != a.run
  {
    ConfigureAgreesExceptRun(true, d, a, p, showDelay);
  }

  /** Before initialisation the readers differ: the string form reads a missing
      `max_passes` as zero, the typed schema defaults it to ten. */
  lemma EmptyBucketDefaultsDiverge()
    ensures DecodeApp(map[]) == Some(Settings(false, 0, "", false, 0))
    ensures SettingsOf(AppDefault) == Settings(false, 10, "", false, 0)
  {
  }

  /** An empty unit bucket reads as the schema's unit default: no next owner, and both
      counters zero. */
  lemma EmptyUnitBucketIsDefault()
    ensures DecodeUnit(map[]) == Some(UnitDefault)
    ensures UnitAgrees(map[], UnitDefault)
  {
  }
}

=== FILE: decimal.dfy ===
/** Decimal text for counters: `str(n)` and `int(s)` as the string-keyed handlers use
    them. `int` is modelled on plain ASCII digit strings, the only form the charm writes. */
module Decimal {
  import opened Optional
  import opened Schema

  function DigitChar(d: nat): (c: char)
    requires d < 10
    ensures IsDigit(c)
  {
    (('0' as int) + d) as char
  }

  function DigitValue(c: char): (d: nat)
    requires IsDigit(c)
    ensures d < 10
  {
    (c as int) - ('0' as int)
  }

  predicate AllDigits(s: string) {
    forall i :: 0 <= i < |s| ==> IsDigit(s[i])
  }

  /** `str(n)` for a non-negative integer: its decimal digits, most significant first. */
  function Show(n: nat): (s: string)
    ensures |s| >= 1 && AllDigits(s)
  {
    if n < 10 then [DigitChar(n)] else Show(n / 10) + [DigitChar(n % 10)]
  }

  /** The number a non-empty digit string denotes. */
  function DigitsValue(s: string): nat
    requires AllDigits(s)
  {
    if s == [] then 0 else DigitsValue(s[..|s| - 1]) * 10 + DigitValue(s[|s| - 1])
  }

  /** `int(s)`: `None` when Python would raise `ValueError`. */
  function Parse(s: string): (r: Option<nat>)
    ensures r.Some? <==> |s| >= 1 && AllDigits(s)
  {
    if |s| >= 1 && AllDigits(s) then Some(DigitsValue(s)) else None
  }

  lemma DigitRoundTrip(d: nat)
    requires d < 10
    ensures DigitValue(DigitChar(d)) == d
  {
  }

  /** `int(str(n)) == n` for every non-negative `n`. */
  lemma {:induction false} ParseShow(n: nat)
    ensures Parse(Show(n)) == Some(n)
  {
    var s := Show(n);
    if n < 10 {
      DigitRoundTrip(n);
      assert s[..|s| - 1] == [];
      assert DigitsValue(s) == DigitsValue([]) * 10 + DigitValue(s[0]);
    } else {
      ParseShow(n / 10);
      DigitRoundTrip(n % 10);
      assert s[..|s| - 1] == Show(n / 10);
      assert s[|s| - 1] == DigitChar(n % 10);
    }
  }

  /** `ParseShow` for every counter at once. */
  lemma ParseShowAll()
    ensures forall n: nat :: Parse(Show(n)) == Some(n)
  {
    forall n: nat
      ensures Parse(Show(n)) == Some(n)
    {
      ParseShow(n);
    }
  }
}

=== FILE: hooks.dfy ===
/** What a handler is told about its surroundings. Both charm variants share these. */
module Hooks {
  import opened Optional

  /** The local unit: its name, whether it is the leader, and the names of its peers
      on the relation (`relation.units`, which does not include the local unit). */
  datatype Context = Context(name: string, isLeader: bool, peers: seq<string>)

  /** Which bucket a relation-changed event reports: the application bucket
      (`event.unit` is `None`) or the bucket of the named unit, with that bucket's contents. */
  datatype Changed<B> = AppChanged | UnitChanged(unit: string, bucket: B)

  /** The parameters of the configure action; an absent parameter is `None`. */
  datatype ConfigureParams<D> = ConfigureParams(
    delay: Option<D>,
    owner: Option<string>,
    maxPasses: Option<nat>,
    run: Option<bool>)

  /** A random draw `randint(0, len(names) - 1)` over the local unit and its peers. */
  predicate ValidPick(ctx: Context, pick: nat) {
    pick <= |ctx.peers|
  }
}

=== FILE: optional.dfy ===
/** The one failure-carrying type of the model. In the string-keyed handlers `None`
    stands for "the hook raised": the platform then discards every relation write
    the hook made, so the buckets keep their previous contents. */
module Optional {

  datatype Option<+T> = None | Some(value: T) {

    /** The value, or `default` when there is none. */
    function GetOr(default: T): T {
      match this
      case Some(v) => v
      case None => default
    }
  }
}

=== FILE: owner_selection.dfy ===
/** `determine_next_owner`: the candidates are the local unit's name together with the
    names of its peers, sorted; the next owner is the candidate at a random index.
    The random draw is the parameter `pick`, constrained to the candidate list's range. */
module OwnerSelection {

  /** Python's `a <= b` on strings: lexicographic by code point, a prefix first. */
  predicate Below(a: string, b: string): (r: bool)
    ensures a <= b ==> r
    ensures r && |a| > 0 ==> |b| > 0 && a[0] <= b[0]
    decreases |a|
  {
    |a| == 0 || (|b| > 0 && (a[0] < b[0] || (a[0] == b[0] && Below(a[1..], b[1..]))))
  }

  lemma {:induction false} BelowTotal(a: string, b: string)
    ensures Below(a, b) || Below(b, a)
    decreases |a|
  {
    if |a| > 0 && |b| > 0 && a[0] == b[0] {
      BelowTotal(a[1..], b[1..]);
    }
  }

  lemma {:induction false} BelowReflexive(a: string)
    ensures Below(a, a)
    decreases |a|
  {
    if |a| > 0 {
      BelowReflexive(a[1..]);
    }
  }

  lemma {:induction false} BelowAntisymmetric(a: string, b: string)
    requires Below(a, b) && Below(b, a)
    ensures a == b
    decreases |a|
  {
    if |a| > 0 {
      BelowAntisymmetric(a[1..], b[1..]);
      assert a == [a[0]] + a[1..] && b == [b[0]] + b[1..];
    }
  }

  lemma {:induction false} BelowTransitive(a: string, b: string, c: string)
    requires Below(a, b) && Below(b, c)
    ensures Below(a, c)
    decreases |a|
  {
    if |a| > 0 && a[0] == b[0] && b[0] == c[0] {
      BelowTransitive(a[1..], b[1..], c[1..]);
    }
  }

  predicate Sorted(s: seq<string>) {
    forall i, j :: 0 <= i < j < |s| ==> Below(s[i], s[j])
  }

  /** `x` is at or below every element of `s`. */
  predicate Lowest(x: string, s: seq<string>) {
    forall i :: 0 <= i < |s| ==> Below(x, s[i])
  }

  lemma LowestOfSame(x: string, s: seq<string>, t: seq<string>)
    requires Lowest(x, s) && multiset(t) <= multiset(s)
    ensures Lowest(x, t)
  {
    forall i | 0 <= i < |t|
      ensures Below(x, t[i])
    {
      assert t[i] in multiset(t);
      var j :| 0 <= j < |s| && s[j] == t[i];
    }
  }

  /** Insertion of one name into a sorted list. */
  function Insert(x: string, s: seq<string>): (r: seq<string>)
    requires Sorted(s)
    ensures Sorted(r)
    ensures multiset(r) == multiset(s) + multiset{x}
  {
    if s == [] then [x]
    else if Below(x, s[0]) then
      assert Lowest(x, s) by {
        forall i | 0 <= i < |s| ensures Below(x, s[i]) {
          if i > 0 { BelowTransitive(x, s[0], s[i]); }
        }
      }
      [x] + s
    else
      var rest := Insert(x, s[1..]);
      assert Lowest(s[0], rest) by {
        BelowTotal(x, s[0]);
        assert Lowest(s[0], s[1..] + [x]);
        LowestOfSame(s[0], s[1..] + [x], rest);
      }
      assert s == [s[0]] + s[1..];
      [s[0]] + rest
  }

  /** `sorted(s)`. */
  function Sort(s: seq<string>): (r: seq<string>)
    ensures Sorted(r)
    ensures multiset(r) == multiset(s)
  {
    if s == [] then []
    else
      assert s == [s[0]] + s[1..];
      Insert(s[0], Sort(s[1..]))
  }

  /** Two sorted lists with the same elements are the same list. */
  lemma {:induction false} SortedUnique(a: seq<string>, b: seq<string>)
    requires Sorted(a) && Sorted(b)
    requires multiset(a) == multiset(b)
    ensures a == b
    decreases |a|
  {
    if a != [] {
      assert a[0] in multiset(b);
      assert b[0] in multiset(a);
      var j :| 0 <= j < |b| && b[j] == a[0];
      var k :| 0 <= k < |a| && a[k] == b[0];
      BelowReflexive(a[0]);
      assert Below(b[0], a[0]) by { if j > 0 { assert Below(b[0], b[j]); } }
      assert Below(a[0], b[0]) by { if k > 0 { assert Below(a[0], a[k]); } }
      BelowAntisymmetric(a[0], b[0]);
      assert a == [a[0]] + a[1..] && b == [b[0]] + b[1..];
      assert multiset(a) == multiset{a[0]} + multiset(a[1..]);
      assert multiset(b) == multiset{b[0]} + multiset(b[1..]);
      assert multiset(a[1..]) == multiset(a) - multiset{a[0]};
      assert multiset(b[1..]) == multiset(b) - multiset{b[0]};
      SortedUnique(a[1..], b[1..]);
    } else {
      assert |b| == |multiset(b)|;
    }
  }

  /** `sorted([self.unit.name] + [unit.name for unit in relation.units])`. */
  function Candidates(self: string, peers: seq<string>): (c: seq<string>)
    ensures Sorted(c)
    ensures multiset(c) == multiset([self] + peers)
    ensures |c| == |peers| + 1
    ensures self in c
  {
    var c := Sort([self] + peers);
    assert |c| == |multiset(c)| == |multiset([self] + peers)|;
    assert self in multiset(c);
    c
  }

  /** The name at a drawn index, or `""` for an empty list. */
  function Pick(names: seq<string>, pick: nat): (name: string)
    requires names != [] ==> pick < |names|
    ensures names == [] ==> name == ""
    ensures names != [] ==> name in names && name == names[pick]
  {
    if names != [] then names[pick] else ""
  }

  /** The proposed next owner for index `pick` of the candidate list. */
  function NextOwner(self: string, peers: seq<string>, pick: nat): (name: string)
    requires pick <= |peers|
    ensures name == self || name in peers
  {
    var c := Candidates(self, peers);
    assert c[pick] in multiset([self] + peers);
    Pick(c, pick)
  }

  /** The pick never lands on the empty-list branch: the local unit is always a candidate. */
  lemma CandidatesNeverEmpty(self: string, peers: seq<string>)
    ensures Candidates(self, peers) != []
    ensures Pick(Candidates(self, peers), 0) in Candidates(self, peers)
  {
  }

  /** The choice for a given index does not depend on the order in which the peers are enumerated. */
  lemma NextOwnerOrderIndependent(self: string, peers: seq<string>, peers': seq<string>, pick: nat)
    requires multiset(peers) == multiset(peers')
    requires pick <= |peers|
    ensures |peers'| == |peers|
    ensures NextOwner(self, peers, pick) == NextOwner(self, peers', pick)
  {
    assert |peers| == |multiset(peers)| == |peers'|;
    assert multiset([self] + peers) == multiset([self] + peers');
    SortedUnique(Candidates(self, peers), Candidates(self, peers'));
  }

  /** Every candidate is chosen by some index, so every unit can be handed the potato. */
  lemma EveryCandidateReachable(self: string, peers: seq<string>, name: string)
    requires name == self || name in peers
    ensures exists pick :: 0 <= pick <= |peers| && NextOwner(self, peers, pick) == name
  {
    var c := Candidates(self, peers);
    assert name in multiset([self] + peers);
    assert name in multiset(c);
    var k :| 0 <= k < |c| && c[k] == name;
    assert NextOwner(self, peers, k) == name;
  }
}

=== FILE: schema.dfy ===
/** The typed record schema of the hot-potato relation: one application bucket
    written only by the leader, and one bucket per unit written only by that unit.
    Field types and defaults follow `AppInterface` and `UnitInterface`. */
module Schema {

  /** A `NonNegativeFloat`. The pacing delay is only stored and copied, never computed with. */
  type Delay = r: real | r >= 0.0

  /** The application bucket. Counters are `NonNegativeInteger`s, hence `nat`. */
  datatype AppBucket = AppBucket(
    initialized: bool,
    delay: Delay,
    maxPasses: nat,
    owner: string,
    run: bool,
    totalPasses: nat)

  /** A unit bucket: the unit's proposal and its own pass counter. */
  datatype UnitBucket = UnitBucket(
    nextOwner: string,
    nextTotalPasses: nat,
    npasses: nat)

  /** What a bucket holds before anything is written to it. */
  const AppDefault := AppBucket(false, 1.0, 10, "", false, 0)
  const UnitDefault := UnitBucket("", 0, 0)

  /** The owner the leader writes when it initialises the application bucket. */
  const InitialOwner := "-"

  predicate IsDigit(c: char) {
    '0' <= c <= '9'
  }

  /** A unit name as the platform issues it: `<application>/<number>`. */
  predicate IsUnitName(n: string) {
    exists k :: 0 < k < |n| - 1 && n[k] == '/' && forall j :: k < j < |n| ==> IsDigit(n[j])
  }

  /** Neither the schema's default owner nor the initialised owner is a unit name,
      so no unit owns the potato until an action names one. */
  lemma NoUnitOwnsByDefault(n: string)
    requires IsUnitName(n)
    ensures AppDefault.owner != n
    ensures InitialOwner != n
  {
    var k :| 0 < k < |n| - 1 && n[k] == '/' && forall j :: k < j < |n| ==> IsDigit(n[j]);
    assert n[k] == '/';
  }
}

=== FILE: string_charm.dfy ===
/** The string-keyed handlers of the hot-potato charm. Buckets are maps from keys to
    text: counters are decimal strings read with `int(bucket.get(key, 0))`, flags are
    `"x"` for true and `""` for false read with `bool(bucket.get(key))`. A handler that
    raises returns `None`; the platform then keeps none of that hook's writes. */
module StringCharm {
  import opened Optional
  import opened Hooks
  import Decimal
  import OwnerSelection

  type Data = map<string, string>

  /** The buckets one unit's handlers touch: the application bucket and its own bucket. */
  datatype Local = Local(app: Data, mine: Data)

  /** `int(d.get(key, 0))`: a missing key reads as zero, unreadable text raises. */
  function Count(d: Data, key: string): (r: Option<nat>)
    ensures key !in d ==> r == Some(0)
    ensures key in d ==> (r.Some? <==> |d[key]| >= 1 && Decimal.AllDigits(d[key]))
    ensures forall n: nat :: key in d && d[key] == Decimal.Show(n) ==> r == Some(n)
  {
    Decimal.ParseShowAll();
    if key in d then Decimal.Parse(d[key]) else Some(0)
  }

  /** `bool(d.get(key))`: true exactly for a present, non-empty value. */
  function Flag(d: Data, key: string): (b: bool)
    ensures key !in d ==> !b
    ensures key in d && d[key] == FlagText(true) ==> b
    ensures key in d && d[key] == FlagText(false) ==> !b
  {
    key in d && d[key] != ""
  }

  /** The text a flag is stored as: `value and "x" or ""`. */
  function FlagText(value: bool): (s: string)
    ensures (s != "") == value
  {
    if value then "x" else ""
  }

  /** `d.get(key) == name`: a missing key matches no name. */
  function Holds(d: Data, key: string, name: string): (b: bool)
    ensures key !in d ==> !b
    ensures b ==> d[key] == name
  {
    key in d && d[key] == name
  }

  /** The settings the leader writes on initialisation. */
  function InitialData(): Data
  {
    map["initialized" := "x", "delay" := "1.0", "max_passes" := Decimal.Show(10),
        "owner" := "-", "run" := "", "total_passes" := Decimal.Show(0)]
  }

  /** Leader elected: initialise unless `initialized` is present and non-empty. */
  function LeaderElected(app: Data, hasRelation: bool): (r: Data)
    ensures !hasRelation || Flag(app, "initialized") ==> r == app
    ensures hasRelation && !Flag(app, "initialized") ==>
      && r.Keys == app.Keys + InitialData().Keys
      && (forall k :: k in InitialData() ==> r[k] == InitialData()[k])
      && (forall k :: k in app && k !in InitialData() ==> r[k] == app[k])
  {
    if hasRelation && !Flag(app, "initialized") then app + InitialData() else app
  }

  /** The leader folds a unit's proposal into the application bucket. All three
      counters are read first; an accepted proposal writes the count and the owner
      (raising when the unit has no `next_owner`), then clears `run` at the maximum. */
  function Merge(app: Data, unit: Data): (r: Option<Data>)
    ensures r.None? <==>
      || Count(app, "max_passes").None? || Count(app, "total_passes").None?
      || Count(unit, "next_total_passes").None?
      || (Count(unit, "next_total_passes").value > Count(app, "total_passes").value
          && "next_owner" !in unit)
    ensures r.Some? && Count(unit, "next_total_passes").value <= Count(app, "total_passes").value ==>
      r.value == app
    ensures r.Some? && Count(unit, "next_total_passes").value > Count(app, "total_passes").value ==>
      var next := Count(unit, "next_total_passes").value;
      && r.value.Keys == app.Keys + {"total_passes", "owner"} + (if next >= Count(app, "max_passes").value then {"run"} else {})
      && Decimal.Parse(r.value["total_passes"]) == Some(next)
      && r.value["owner"] == unit["next_owner"]
      && (next >= Count(app, "max_passes").value ==> !Flag(r.value, "run"))
      && (next < Count(app, "max_passes").value && "run" in app ==> r.value["run"] == app["run"])
      && (forall k :: k in app && k !in {"total_passes", "owner", "run"} ==> r.value[k] == app[k])
  {
    var maxPasses := Count(app, "max_passes");
    var total := Count(app, "total_passes");
    var next := Count(unit, "next_total_passes");
    if maxPasses.None? || total.None? || next.None? then
      None
    else if next.value > total.value then
      if "next_owner" !in unit then
        None
      else
        Decimal.ParseShow(next.value);
        var moved := app["total_passes" := Decimal.Show(next.value)]["owner" := unit["next_owner"]];
        if next.value >= maxPasses.value then Some(moved["run" := ""]) else Some(moved)
    else
      Some(app)
  }

  /** The owner proposes the next pass in its own bucket; a non-owner writes nothing. */
  function Propose(name: string, unit: Data, app: Data, nextOwner: string): (r: Option<Data>)
    ensures !Holds(app, "owner", name) ==> r == Some(unit)
    ensures Holds(app, "owner", name) ==>
      (r.None? <==> Count(app, "total_passes").None? || Count(unit, "npasses").None?)
    ensures Holds(app, "owner", name) && r.Some? ==>
      && r.value.Keys == unit.Keys + {"next_total_passes", "next_owner", "npasses"}
      && Decimal.Parse(r.value["next_total_passes"]) == Some(Count(app, "total_passes").value + 1)
      && Decimal.Parse(r.value["npasses"]) == Some(Count(unit, "npasses").value + 1)
      && r.value["next_owner"] == nextOwner
      && (forall k :: k in unit && k !in {"next_total_passes", "next_owner", "npasses"} ==> r.value[k] == unit[k])
  {
    if Holds(app, "owner", name) then
      var total := Count(app, "total_passes");
      var served := Count(unit, "npasses");
      if total.None? || served.None? then
        None
      else
        Decimal.ParseShow(total.value + 1);
        Decimal.ParseShow(served.value + 1);
        Some(unit["next_total_passes" := Decimal.Show(total.value + 1)]
                 ["next_owner" := nextOwner]
                 ["npasses" := Decimal.Show(served.value + 1)])
    else
      Some(unit)
  }

  /** Relation changed, with the same routing as the typed handler. After a merge of
      another unit's proposal the leader reads `delay` with `float`, which raises when
      the key is missing. */
  function RelationChanged(ctx: Context, s: Local, ev: Changed<Data>, pick: nat): (r: Option<Local>)
    requires ValidPick(ctx, pick)
    ensures !Flag(s.app, "run") ==> r == Some(s)
    ensures ev.UnitChanged? && !ctx.isLeader ==> r == Some(s)
    ensures ev.UnitChanged? && ctx.isLeader && Flag(s.app, "run") ==>
      && (r.None? <==> Merge(s.app, ev.bucket).None? || "delay" !in s.app)
      && (r.Some? ==> r.value == Local(Merge(s.app, ev.bucket).value, s.mine))
    ensures r.Some? && !ctx.isLeader ==> r.value.app == s.app
    ensures r.Some? && ev.UnitChanged? ==> r.value.mine == s.mine
    ensures ev.AppChanged? && Flag(s.app, "run") ==>
      var proposed := Propose(ctx.name, s.mine, s.app, OwnerSelection.NextOwner(ctx.name, ctx.peers, pick));
      && (proposed.None? ==> r.None?)
      && (proposed.Some? && !ctx.isLeader ==> r == Some(Local(s.app, proposed.value)))
      && (proposed.Some? && ctx.isLeader ==>
            && (r.None? <==> Merge(s.app, proposed.value).None?)
            && (r.Some? ==> r.value == Local(Merge(s.app, proposed.value).value, proposed.value)))
  {
    if !Flag(s.app, "run") then
      Some(s)
    else if ctx.isLeader && ev.UnitChanged? then
      match Merge(s.app, ev.bucket)
      case None => None
      case Some(app) => if "delay" in app then Some(Local(app, s.mine)) else None
    else if ev.UnitChanged? then
      Some(s)
    else
      match Propose(ctx.name, s.mine, s.app, OwnerSelection.NextOwner(ctx.name, ctx.peers, pick))
      case None => None
      case Some(mine) =>
        if ctx.isLeader then
          match Merge(s.app, mine)
          case None => None
          case Some(app) => Some(Local(app, mine))
        else
          Some(Local(s.app, mine))
  }

  /** The configure action: the leader writes whichever of delay, owner and maximum
      are given. Unlike the typed handler it never writes the run flag. The delay is
      written as `str` renders it, given here as `showDelay`. */
  function Configure<D>(isLeader: bool, app: Data, p: ConfigureParams<D>, showDelay: D -> string): (r: Data)
    ensures !isLeader ==> r == app
    ensures isLeader && p.delay.Some? ==> "delay" in r && r["delay"] == showDelay(p.delay.value)
    ensures isLeader && p.owner.Some? ==> "owner" in r && r["owner"] == p.owner.value
    ensures isLeader && p.maxPasses.Some? ==>
      "max_passes" in r && Decimal.Parse(r["max_passes"]) == Some(p.maxPasses.value)
    ensures forall k :: k in app && k !in {"delay", "owner", "max_passes"} ==> k in r && r[k] == app[k]
    ensures forall k :: k in r ==> k in app || k in {"delay", "owner", "max_passes"}
    ensures forall k :: k in {"delay", "owner", "max_passes"} && k in app ==> k in r
    ensures p.delay.None? ==> ("delay" in r <==> "delay" in app) && ("delay" in app ==> r["delay"] == app["delay"])
    ensures p.owner.None? ==> ("owner" in r <==> "owner" in app) && ("owner" in app ==> r["owner"] == app["owner"])
    ensures p.maxPasses.None? ==>
      ("max_passes" in r <==> "max_passes" in app) && ("max_passes" in app ==> r["max_passes"] == app["max_passes"])
  {
    if isLeader then
      var a1 := if p.delay.Some? then app["delay" := showDelay(p.delay.value)] else app;
      var a2 := if p.owner.Some? then a1["owner" := p.owner.value] else a1;
      if p.maxPasses.Some? then
        Decimal.ParseShow(p.maxPasses.value);
        a2["max_passes" := Decimal.Show(p.maxPasses.value)]
      else
        a2
    else
      app
  }

  /** The run action: the leader stores the flag as `"x"` or `""`. */
  function RunAction(isLeader: bool, app: Data, run: bool): (r: Data)
    ensures !isLeader ==> r == app
    ensures isLeader ==> Flag(r, "run") == run
    ensures forall k :: k in app && k != "run" ==> k in r && r[k] == app[k]
    ensures forall k :: k in r ==> k in app || k == "run"
  {
    if isLeader then app["run" := FlagText(run)] else app
  }
}

=== FILE: traces.dfy ===
/** Sequences of hooks delivered to one unit, run one after another to completion,
    over the typed buckets. Deliveries from other units appear as unit-changed events
    carrying that unit's bucket, so a leader's trace covers every merge it performs. */
module Traces {
  import opened Schema
  import opened Hooks
  import opened TypedCharm
  import OwnerSelection

  datatype Event =
    | LeaderElectedEvent(hasRelation: bool)
    | RelationChangedEvent(changed: Changed<UnitBucket>, pick: nat)
    | ConfigureEvent(params: ConfigureParams<Delay>)
    | RunEvent(run: bool)

  predicate ValidEvent(ctx: Context, e: Event) {
    e.RelationChangedEvent? ==> ValidPick(ctx, e.pick)
  }

  predicate ValidTrace(ctx: Context, evs: seq<Event>) {
    forall k :: 0 <= k < |evs| ==> ValidEvent(ctx, evs[k])
  }

  /** One hook. The platform delivers leader-elected only to the leader. */
  function Step(ctx: Context, s: Local, e: Event): (r: Local)
    requires ValidEvent(ctx, e)
    ensures !e.LeaderElectedEvent? && !e.RelationChangedEvent? ==> r.mine == s.mine
    ensures s.app.initialized ==> r.app.initialized && r.app.totalPasses >= s.app.totalPasses
    ensures !ctx.isLeader && !e.LeaderElectedEvent? ==> r.app == s.app
    ensures e.LeaderElectedEvent? || e.RelationChangedEvent? ==> (r.app.run ==> s.app.run)
    ensures (e.LeaderElectedEvent? || e.RelationChangedEvent?) && s.app.initialized && !s.app.run ==> r == s
    ensures r.mine.npasses >= s.mine.npasses
  {
    match e
    case LeaderElectedEvent(hasRelation) => Local(LeaderElected(s.app, hasRelation), s.mine)
    case RelationChangedEvent(changed, pick) => RelationChanged(ctx, s, changed, pick)
    case ConfigureEvent(params) => Local(Configure(ctx.isLeader, s.app, params), s.mine)
    case RunEvent(run) => Local(RunAction(ctx.isLeader, s.app, run), s.mine)
  }

  function Run(ctx: Context, s: Local, evs: seq<Event>): Local
    requires ValidTrace(ctx, evs)
    decreases |evs|
  {
    if evs == [] then s else Run(ctx, Step(ctx, s, evs[0]), evs[1..])
  }

  /** Hooks from the relation and leadership only: no administrative action. */
  predicate NoActions(evs: seq<Event>) {
    forall k :: 0 <= k < |evs| ==> evs[k].LeaderElectedEvent? || evs[k].RelationChangedEvent?
  }

  /** Once the application bucket is initialised it stays initialised, and from then on
      the pass count never decreases, whatever hooks arrive. */
  lemma {:induction false} TotalPassesMonotone(ctx: Context, s: Local, evs: seq<Event>)
    requires ValidTrace(ctx, evs)
    requires s.app.initialized
    ensures Run(ctx, s, evs).app.initialized
    ensures Run(ctx, s, evs).app.totalPasses >= s.app.totalPasses
    decreases |evs|
  {
    if evs != [] {
      var s' := Step(ctx, s, evs[0]);
      assert s'.app.initialized && s'.app.totalPasses >= s.app.totalPasses;
      TotalPassesMonotone(ctx, s', evs[1..]);
    }
  }

  /** A stopped run stays exactly where it is until an action intervenes: no relation
      or leadership hook writes either bucket. */
  lemma {:induction false} HaltedIsFrozen(ctx: Context, s: Local, evs: seq<Event>)
    requires ValidTrace(ctx, evs) && NoActions(evs)
    requires s.app.initialized && !s.app.run
    ensures Run(ctx, s, evs) == s
    decreases |evs|
  {
    if evs != [] {
      assert Step(ctx, s, evs[0]) == s by {
        assert evs[0].LeaderElectedEvent? || evs[0].RelationChangedEvent?;
      }
      HaltedIsFrozen(ctx, s, evs[1..]);
    }
  }

  /** The halting rule as an invariant: without actions, a running bucket is always
      below its maximum, so reaching the maximum stops the run. */
  predicate BelowMaxWhileRunning(a: AppBucket) {
    a.run ==> a.totalPasses < a.maxPasses
  }

  lemma {:induction false} HaltingInvariant(ctx: Context, s: Local, evs: seq<Event>)
    requires ValidTrace(ctx, evs) && NoActions(evs)
    requires BelowMaxWhileRunning(s.app)
    ensures BelowMaxWhileRunning(Run(ctx, s, evs).app)
    decreases |evs|
  {
    if evs != [] {
      assert evs[0].LeaderElectedEvent? || evs[0].RelationChangedEvent?;
      var s' := Step(ctx, s, evs[0]);
      assert BelowMaxWhileRunning(s'.app);
      HaltingInvariant(ctx, s', evs[1..]);
    }
  }

  /** Without actions, no hook ever sets the run flag. */
  lemma {:induction false} NeverRestarts(ctx: Context, s: Local, evs: seq<Event>)
    requires ValidTrace(ctx, evs) && NoActions(evs)
    requires !s.app.run
    ensures !Run(ctx, s, evs).app.run
    decreases |evs|
  {
    if evs != [] {
      assert evs[0].LeaderElectedEvent? || evs[0].RelationChangedEvent?;
      NeverRestarts(ctx, Step(ctx, s, evs[0]), evs[1..]);
    }
  }

  /** The leader is the only writer of the application bucket: a non-leader, which is
      never told it was elected, leaves it untouched whatever else arrives. */
  lemma {:induction false} NonLeaderNeverWritesApp(ctx: Context, s: Local, evs: seq<Event>)
    requires ValidTrace(ctx, evs) && !ctx.isLeader
    requires forall k :: 0 <= k < |evs| ==> !evs[k].LeaderElectedEvent?
    ensures Run(ctx, s, evs).app == s.app
    decreases |evs|
  {
    if evs != [] {
      assert !evs[0].LeaderElectedEvent?;
      NonLeaderNeverWritesApp(ctx, Step(ctx, s, evs[0]), evs[1..]);
    }
  }

  /** A unit's own pass counter never decreases. */
  lemma {:induction false} PassesServedMonotone(ctx: Context, s: Local, evs: seq<Event>)
    requires ValidTrace(ctx, evs)
    ensures Run(ctx, s, evs).mine.npasses >= s.mine.npasses
    decreases |evs|
  {
    if evs != [] {
      var s' := Step(ctx, s, evs[0]);
      assert s'.mine.npasses >= s.mine.npasses;
      PassesServedMonotone(ctx, s', evs[1..]);
    }
  }

  /** Two units `hp/0` (the leader) and `hp/1`, three passes allowed. The leader owns
      the potato and hands it to `hp/1`; `hp/1` proposes twice; the third merge stops
      the run. A stale proposal delivered in between changes nothing. */
  lemma PassingScenario()
    ensures var ctx := Context("hp/0", true, ["hp/1"]);
      var s0 := Local(AppBucket(true, 1.0, 3, "hp/0", true, 0), UnitDefault);
      var s1 := RelationChanged(ctx, s0, AppChanged, 1);
      var s2 := RelationChanged(ctx, s1, UnitChanged("hp/1", UnitBucket("hp/1", 2, 1)), 0);
      var s3 := RelationChanged(ctx, s2, UnitChanged("hp/1", UnitBucket("hp/0", 1, 0)), 0);
      var s4 := RelationChanged(ctx, s3, UnitChanged("hp/1", UnitBucket("hp/0", 3, 2)), 0);
      && s1.app == AppBucket(true, 1.0, 3, "hp/1", true, 1)
      && s2.app == AppBucket(true, 1.0, 3, "hp/1", true, 2)
      && s3 == s2
      && s4.app == AppBucket(true, 1.0, 3, "hp/0", false, 3)
  {
    var c := OwnerSelection.Candidates("hp/0", ["hp/1"]);
    assert OwnerSelection.Below("hp/0", "hp/1");
    assert !OwnerSelection.Below("hp/1", "hp/0");
    OwnerSelection.SortedUnique(c, ["hp/0", "hp/1"]);
  }
}

=== FILE: typed_charm.dfy ===
/** The typed handlers of the hot-potato charm: application and unit buckets are
    records, and each handler maps the buckets it may read to the buckets it writes. */
module TypedCharm {
  import opened Schema
  import opened Hooks
  import OwnerSelection

  /** The buckets one unit's handlers touch: the application bucket and its own bucket. */
  datatype Local = Local(app: AppBucket, mine: UnitBucket)

  /** Leader elected: when the relation exists and the bucket is not yet initialised,
      write the initial settings; otherwise leave the bucket alone. */
  function LeaderElected(app: AppBucket, hasRelation: bool): (r: AppBucket)
    ensures !hasRelation || app.initialized ==> r == app
    ensures hasRelation && !app.initialized ==>
      && r.initialized && r.delay == 1.0 && r.maxPasses == 10
      && r.owner == InitialOwner && !r.run && r.totalPasses == 0
    ensures r.initialized <==> hasRelation || app.initialized
  {
    if hasRelation && !app.initialized then
      AppBucket(true, 1.0, 10, InitialOwner, false, 0)
    else
      app
  }

  /** The leader folds a unit's proposal into the application bucket. A proposal is
      accepted only when it is ahead of the current count; an accepted proposal that
      reaches the maximum stops the run. */
  function Merge(app: AppBucket, unit: UnitBucket): (r: AppBucket)
    ensures unit.nextTotalPasses <= app.totalPasses ==> r == app
    ensures unit.nextTotalPasses > app.totalPasses ==>
      && r.totalPasses == unit.nextTotalPasses
      && r.owner == unit.nextOwner
      && r.run == (app.run && r.totalPasses < app.maxPasses)
    ensures r.initialized == app.initialized && r.delay == app.delay && r.maxPasses == app.maxPasses
    ensures r.totalPasses >= app.totalPasses
    ensures r.run ==> app.run
  {
    if unit.nextTotalPasses > app.totalPasses then
      var moved := app.(totalPasses := unit.nextTotalPasses, owner := unit.nextOwner);
      if moved.totalPasses >= moved.maxPasses then moved.(run := false) else moved
    else
      app
  }

  /** A unit that owns the potato proposes the next pass: one more than the
      current count, a chosen next owner, and one more pass served by itself. */
  function Propose(name: string, unit: UnitBucket, app: AppBucket, nextOwner: string): (r: UnitBucket)
    ensures app.owner != name ==> r == unit
    ensures app.owner == name ==>
      && r.nextTotalPasses == app.totalPasses + 1
      && r.npasses == unit.npasses + 1
      && r.nextOwner == nextOwner
    ensures r.npasses >= unit.npasses
  {
    if app.owner == name then
      UnitBucket(nextOwner, app.totalPasses + 1, unit.npasses + 1)
    else
      unit
  }

  /** Relation changed. Nothing happens unless the run flag is set. The leader merges
      a changed unit bucket; any other unit ignores unit changes. On an application
      change every unit proposes (a no-op unless it is the owner), and the leader, which
      is not told about changes to its own bucket, merges its own proposal at once. */
  function RelationChanged(ctx: Context, s: Local, ev: Changed<UnitBucket>, pick: nat): (r: Local)
    requires ValidPick(ctx, pick)
    ensures !s.app.run ==> r == s
    ensures !ctx.isLeader ==> r.app == s.app
    ensures ev.UnitChanged? ==> r.mine == s.mine
    ensures ev.UnitChanged? && !ctx.isLeader ==> r == s
    ensures ev.UnitChanged? && ctx.isLeader && s.app.run ==> r.app == Merge(s.app, ev.bucket)
    ensures s.app.owner != ctx.name ==> r.mine == s.mine
    ensures ev.AppChanged? && s.app.run ==>
      r.mine == Propose(ctx.name, s.mine, s.app, OwnerSelection.NextOwner(ctx.name, ctx.peers, pick))
    ensures ev.AppChanged? && s.app.run ==> r.app == (if ctx.isLeader then Merge(s.app, r.mine) else s.app)
    ensures r.app.totalPasses >= s.app.totalPasses
    ensures r.app.run ==> s.app.run
    ensures r.app.initialized == s.app.initialized && r.app.delay == s.app.delay
    ensures r.app.maxPasses == s.app.maxPasses
  {
    if !s.app.run then
      s
    else if ctx.isLeader && ev.UnitChanged? then
      Local(Merge(s.app, ev.bucket), s.mine)
    else if ev.UnitChanged? then
      s
    else
      var mine := Propose(ctx.name, s.mine, s.app, OwnerSelection.NextOwner(ctx.name, ctx.peers, pick));
      if ctx.isLeader then Local(Merge(s.app, mine), mine) else Local(s.app, mine)
  }

  /** The configure action: the leader sets whichever of delay, owner, maximum and
      run flag are given. */
  function Configure(isLeader: bool, app: AppBucket, p: ConfigureParams<Delay>): (r: AppBucket)
    ensures !isLeader ==> r == app
    ensures isLeader ==>
      && r.delay == p.delay.GetOr(app.delay)
      && r.owner == p.owner.GetOr(app.owner)
      && r.maxPasses == p.maxPasses.GetOr(app.maxPasses)
      && r.run == p.run.GetOr(app.run)
    ensures r.totalPasses == app.totalPasses && r.initialized == app.initialized
  {
    if isLeader then
      var a1 := if p.delay.Some? then app.(delay := p.delay.value) else app;
      var a2 := if p.owner.Some? then a1.(owner := p.owner.value) else a1;
      var a3 := if p.maxPasses.Some? then a2.(maxPasses := p.maxPasses.value) else a2;
      if p.run.Some? then a3.(run := p.run.value) else a3
    else
      app
  }

  /** The run action: the leader sets the run flag. */
  function RunAction(isLeader: bool, app: AppBucket, run: bool): (r: AppBucket)
    ensures !isLeader ==> r == app
    ensures isLeader ==> r.run == run
    ensures r == app.(run := r.run)
  {
    if isLeader then app.(run := run) else app
  }

  /** Initialisation happens once: a second leader election changes nothing. */
  lemma LeaderElectedIdempotent(app: AppBucket, hasRelation: bool)
    ensures LeaderElected(LeaderElected(app, hasRelation), hasRelation) == LeaderElected(app, hasRelation)
  {
  }

  /** Merging the same proposal twice is the same as merging it once, so replayed
      notifications are harmless. */
  lemma MergeIdempotent(app: AppBucket, unit: UnitBucket)
    ensures Merge(Merge(app, unit), unit) == Merge(app, unit)
  {
  }

  /** A proposal strictly behind, or equal to, the current count leaves the application
      bucket exactly as it was; one strictly ahead always changes the count. */
  lemma MergeAcceptsExactlyFresh(app: AppBucket, unit: UnitBucket)
    ensures Merge(app, unit) == app <==> unit.nextTotalPasses <= app.totalPasses
  {
  }

  /** Halting: an accepted proposal that reaches the maximum leaves the run stopped. */
  lemma MergeHalts(app: AppBucket, unit: UnitBucket)
    requires unit.nextTotalPasses > app.totalPasses
    requires unit.nextTotalPasses >= app.maxPasses
    ensures !Merge(app, unit).run
    ensures Merge(app, unit).totalPasses == unit.nextTotalPasses
  {
  }

  /** A replayed unit notification has no further effect. */
  lemma ReplayedUnitEventIsNoOp(ctx: Context, s: Local, name: string, b: UnitBucket, pick: nat)
    requires ValidPick(ctx, pick)
    ensures var once := RelationChanged(ctx, s, UnitChanged(name, b), pick);
      RelationChanged(ctx, once, UnitChanged(name, b), pick) == once
  {
  }

  /** Replay is harmless only on the leader's side. A running non-leader owner that sees
      the same application change twice proposes twice: its pass counter moves by two and
      the next owner is drawn again, while the proposed count is the same both times, so the
      leader's guard accepts at most one of the two proposals. */
  lemma ReplayedAppEventProposesTwice(ctx: Context, s: Local, pick: nat, pick': nat)
    requires ValidPick(ctx, pick) && ValidPick(ctx, pick')
    requires !ctx.isLeader && s.app.run && s.app.owner == ctx.name
    ensures var once := RelationChanged(ctx, s, AppChanged, pick);
      var twice := RelationChanged(ctx, once, AppChanged, pick');
      && twice.app == s.app
      && twice.mine.npasses == s.mine.npasses + 2
      && twice.mine.nextTotalPasses == once.mine.nextTotalPasses == s.app.totalPasses + 1
      && twice.mine.nextOwner == OwnerSelection.NextOwner(ctx.name, ctx.peers, pick')
  {
  }

  /** Self-reconcile: a leader that owns the potato and sees the application bucket
      change proposes and merges its own proposal in the same hook, advancing the
      count by one and handing the potato to the selected candidate. */
  lemma LeaderSelfReconcile(ctx: Context, s: Local, pick: nat)
    requires ValidPick(ctx, pick)
    requires ctx.isLeader && s.app.run && s.app.owner == ctx.name
    ensures var r := RelationChanged(ctx, s, AppChanged, pick);
      && r.app.totalPasses == s.app.totalPasses + 1
      && r.app.owner == OwnerSelection.NextOwner(ctx.name, ctx.peers, pick)
      && (r.app.owner == ctx.name || r.app.owner in ctx.peers)
      && r.app.run == (s.app.totalPasses + 1 < s.app.maxPasses)
      && r.mine.nextTotalPasses == r.app.totalPasses
      && r.mine.npasses == s.mine.npasses + 1
  {
  }

  /** A non-leader owner moves the potato on: on an application change it proposes the
      next pass in its own bucket and leaves the application bucket to the leader. */
  lemma NonLeaderOwnerProposes(ctx: Context, s: Local, pick: nat)
    requires ValidPick(ctx, pick)
    requires !ctx.isLeader && s.app.run && s.app.owner == ctx.name
    ensures var r := RelationChanged(ctx, s, AppChanged, pick);
      && r.app == s.app
      && r.mine.nextTotalPasses == s.app.totalPasses + 1
      && r.mine.nextOwner == OwnerSelection.NextOwner(ctx.name, ctx.peers, pick)
      && (r.mine.nextOwner == ctx.name || r.mine.nextOwner in ctx.peers)
      && r.mine.npasses == s.mine.npasses + 1
  {
  }

  /** Only the owner proposes: a unit that does not own the potato writes nothing on
      an application change, and a non-leader writes nothing at all then. */
  lemma OnlyOwnerProposes(ctx: Context, s: Local, pick: nat)
    requires ValidPick(ctx, pick)
    requires s.app.owner != ctx.name && !ctx.isLeader
    ensures RelationChanged(ctx, s, AppChanged, pick) == s
  {
  }
}
